=== FILE: README.md ===
# Telebot calendar in Dafny

A model of the `telebot_calendar` module. The module draws a month calendar as a
Telegram inline keyboard and handles the presses on its buttons. The model covers:

- the callback-data token. `create_callback_data` joins an action, a year, a month
  and a day with `;`. The handler splits the token back into four fields and
  checks that the first of the month is a valid `datetime`.
- the day grid (`create_calendar`):
  - a header that opens the month picker;
  - a row of weekday labels;
  - one row per week of `calendar.monthcalendar`, with today marked as `(d)`;
  - a row of previous / cancel / next controls.
- the month picker (`create_months_calendar`).
- the handler (`calendar_query_handler`): its table from action to bot calls and
  return value, including the exceptions it raises.

Modules, in dependency order:

| file | module | what it holds |
|---|---|---|
| wrappers.dfy | `Wrappers`, `Errors` | `Option`, `Result`, and one error kind per exception the source can raise |
| text.dfy | `Text` | `str.join` and `str.split` on one separator character, and their round trip |
| decimal.dfy | `Decimal` | `str(n)` and `int(s)` for plain decimal integers |
| gregorian.dfy | `Gregorian` | the proleptic Gregorian calendar of `datetime`: ordinals, weekdays, `timedelta` steps, month arithmetic |
| month_calendar.dfy | `MonthCalendar` | `calendar.monthcalendar` with Monday as first weekday |
| callback_data.dfy | `CallbackData` | the token codec |
| keyboard.dfy | `Keyboard` | the two keyboards as lists of rows of buttons |
| handler.dfy | `Handler` | the press handler |

How the model represents the source:

- Bot calls become a list of `Effect` values, in the order the source makes them.
  There are three kinds: `Answer` for `answer_callback_query`, `Delete` for
  `delete_message`, and `Edit` for `edit_message_text`.
- The returned tuple becomes `Returned(tag, date)`.
- An exception becomes `Raised(error)`.
- The clock (`datetime.now()`) becomes a `today` parameter.

The model keeps these behaviours of the code as they are:

- the token is the four fields joined by `;`, with nothing in front of them and no limit on its length;
- the weekday labels run Sunday first, while the grid's columns run Monday first;
- the month picker's first column carries month `i + 1`, not the month its label names;
- PREVIOUS-MONTH steps back one day from the first of the month, and NEXT-MONTH steps
  forward 31 days. Both are proved to land in the adjacent calendar month;
- `datetime` reads its fields as C `int`s, so a year, month or day beyond that range
  raises OverflowError rather than ValueError.

## Model

| member | source | states |
|---|---|---|
| `Text.Join` | telebot_calendar.py:22 | `";".join`; what it promises is stated by its inverse, `Text.SplitOfJoin`, and by `Text.JoinInjective` |
| `Text.SplitOfJoin` | telebot_calendar.py:99 | splitting a `;`-join of parts free of `;` gives back exactly those parts |
| `Text.Split` | telebot_calendar.py:99 | the split has one piece more than there are separators, no piece holds the separator, and joining the pieces gives the input back |
| `Text.JoinInjective` | telebot_calendar.py:22 | two non-empty lists of separator-free parts have the same join exactly when they are equal |
| `Decimal.IntToString` | telebot_calendar.py:22 | `str(n)` is a `-` exactly when `n` is negative, then at least one ASCII digit and no leading zero, so 0 prints as `0` and never as `-0` |
| `Decimal.ParseInt` | telebot_calendar.py:100 | a string `int()` accepts holds only digits and one leading sign; a digit string reads as its decimal value, and after a sign as that value, negated for `-` |
| `Decimal.ParseOfIntToString` | telebot_calendar.py:22 | `int` of `str(n)` is `n` for every integer, negatives included |
| `Decimal.IntToStringInjective` | telebot_calendar.py:55 | distinct integers print differently |
| `Decimal.NatToString` | telebot_calendar.py:22 | a printed natural number is a non-empty string of ASCII digits without a leading zero |
| `CallbackData.CreateCallbackData` | telebot_calendar.py:11-22 | a token built from a `;`-free action and day splits into exactly the action, printed year, printed month and day |
| `CallbackData.DecodeOfCallbackData` | telebot_calendar.py:11-22 | a token built from a `;`-free action and day, for a month `datetime` can represent, decodes to the same four fields |
| `CallbackData.Decode` | telebot_calendar.py:99-100 | a split into other than four pieces is an unpack error; a decoded token is the `;`-join of its `;`-free action, strings `int()` reads as its year and month, and its `;`-free day, and the first of its month is a valid date |
| `CallbackData.DecodeOfPieces` | telebot_calendar.py:99-100 | conversely, any such join decodes to those fields, whatever spelling the year and month use |
| `CallbackData.DecodeFailures` | telebot_calendar.py:99-100 | decoding fails exactly when the split is not four pieces, the year or month is not an integer, or the first of the month is not a date; a year or month `int()` rejects raises ValueError, and a bad first of the month, however its numbers are spelled, raises OverflowError for a field beyond a C `int` and ValueError otherwise |
| `CallbackData.DecodeIsCanonical` | telebot_calendar.py:11-22 | re-encoding decoded fields gives a token that decodes to the same fields |
| `Gregorian.DaysInMonth` | telebot_calendar.py:50 | a month has 28 to 31 days; 29 exactly for February of a leap year, 28 exactly for February of a common year |
| `Gregorian.MakeDate` | telebot_calendar.py:100 | `datetime(y, m, d)` succeeds exactly for a valid date; otherwise it raises OverflowError when a field is beyond a C `int`, and ValueError when not |
| `Gregorian.Weekday` | telebot_calendar.py:50 | weekdays run 0..6 with 0001-01-01 a Monday (0) |
| `Gregorian.WeekdayAfter` | telebot_calendar.py:50 | `k` days later is `k` weekdays later, modulo 7 |
| `Gregorian.OrdinalBounds` | telebot_calendar.py:100 | every valid date has an ordinal in 1..3652059, the first and last being 0001-01-01 and 9999-12-31 |
| `Gregorian.OrdinalInjective` | telebot_calendar.py:100 | distinct valid dates have distinct ordinals |
| `Gregorian.YearLength` | telebot_calendar.py:50 | consecutive year starts are 366 ordinals apart for leap years and 365 otherwise |
| `Gregorian.NextDay` | telebot_calendar.py:116 | the next date has the next ordinal; there is none only after 9999-12-31 |
| `Gregorian.PrevDay` | telebot_calendar.py:109 | the previous date has the previous ordinal; there is none only before 0001-01-01 |
| `Gregorian.AddDays` | telebot_calendar.py:109-116 | adding a `timedelta` of `k` days gives the valid date whose ordinal is `k` more, and overflows exactly when that ordinal leaves 1..3652059 |
| `Gregorian.NextMonthRollsOver` | telebot_calendar.py:115-120 | the month after December is January of the next year, otherwise the next month of the same year |
| `Gregorian.PreviousMonthRollsBack` | telebot_calendar.py:108-113 | the month before January is December of the previous year, otherwise the previous month of the same year |
| `Gregorian.NextMonthByOffset` | telebot_calendar.py:116 | the first of a month plus 31 days falls in the next calendar month, and overflows only from December 9999 |
| `Gregorian.PreviousMonthByOffset` | telebot_calendar.py:109 | the first of a month minus one day is the last day of the previous calendar month, and overflows only from January of year 1 |
| `MonthCalendar.CycleYear` | telebot_calendar.py:50 | the year whose weekdays are used lies in 1..9999, has the same leapness as the year asked for, and lies a whole number of 400-year cycles away from it |
| `MonthCalendar.MonthDays` | telebot_calendar.py:50 | the flat cell list is the first weekday's count of leading blanks, days 1..n in order, then trailing blanks up to a whole number of weeks |
| `MonthCalendar.MonthWeeks` | telebot_calendar.py:50-60 | the month has four to six weeks of seven cells, and each cell shows its day or a blank |
| `MonthCalendar.BlanksArePadding` | telebot_calendar.py:53-54 | a blank cell lies before day 1 in the first week or after the last day in the last week |
| `MonthCalendar.DayPosition` | telebot_calendar.py:50-60 | each day of the month appears once, at its row-by-row position; its column is its weekday, Monday first |
| `Keyboard.DateKeyIdentifies` | telebot_calendar.py:55 | the `day.month.year` strings of two dates are equal exactly when the dates are |
| `Keyboard.DayButton` | telebot_calendar.py:52-59 | a 0 entry is a blank IGNORE button; day `d` carries DAY with `d` and is labelled `(d)` exactly when today is that date, `d` otherwise |
| `Keyboard.CalendarMarkup` | telebot_calendar.py:41-64 | the grid has three rows more than the month has weeks, and each week row has seven buttons |
| `Keyboard.CreateCalendar` | telebot_calendar.py:25-66 | rendering fails exactly for a month outside 1..12 |
| `Keyboard.CalendarShape` | telebot_calendar.py:41-64 | the grid is a MONTHS header, seven IGNORE labels, week rows of seven, and the three controls |
| `Keyboard.CalendarCell` | telebot_calendar.py:50-59 | a cell inside the month carries the DAY token of its day; every other cell is a blank IGNORE button |
| `Keyboard.DayCell` | telebot_calendar.py:55-59 | day `d` carries DAY with `d` and is labelled `(d)` exactly when it is today's date |
| `Keyboard.LabelOverDay` | telebot_calendar.py:8 | the label over a day's column names the weekday before it, so every Monday sits under "Su" |
| `Keyboard.CalendarTokensDecode` | telebot_calendar.py:41-64 | every button of a grid for a valid month decodes to that year and month |
| `Keyboard.CreateMonthsCalendar` | telebot_calendar.py:69-86 | the picker is six rows of two buttons labelled January to December |
| `Keyboard.MonthsCalendarTokens` | telebot_calendar.py:82-84 | row `i` carries MONTH tokens for months `i + 1` and `2 * (i + 1)` |
| `Keyboard.MonthsCalendarLabelMatches` | telebot_calendar.py:82-84 | a picker button leads to the month its label names exactly when it is in the second column or the first row |
| `Handler.HandleQuery` | telebot_calendar.py:89-142 | every bot call concerns the pressed message; every day grid it edits in shows a month whose first day is a valid `datetime`; a failed decode raises with no bot call; at most two calls; a returned date is valid; only DAY raises after a bot call |
| `Handler.Dispatch` | telebot_calendar.py:101-142 | a decoded press makes one or two bot calls, unless the month step overflows; every day grid it edits in shows a month whose first day is a valid `datetime` |
| `Handler.ActionOf` | telebot_calendar.py:101-142 | each of the seven action names has its own branch; exactly the other strings reach the final `else` |
| `Handler.DayChosen` | telebot_calendar.py:104-107 | DAY deletes the message first; it returns `("DAY", date)` exactly when the day field reads as a day of the token's month, and otherwise raises ValueError for a non-integer, OverflowError for a field beyond a C `int`, and ValueError for the rest |
| `Handler.StepMonth` | telebot_calendar.py:109-121 | a month step either overflows with no bot call or makes one edit, into the grid of a month whose first day is a valid `datetime`, and returns `(None, None)` |
| `Handler.PressDispatches` | telebot_calendar.py:99-100 | a token the module builds passes the unpack and date check unchanged |
| `Handler.UnpackGuard` | telebot_calendar.py:99 | data that does not split into four pieces raises before any bot call |
| `Handler.DateGuard` | telebot_calendar.py:100 | an invalid year or month raises before any bot call, whatever the action: OverflowError beyond a C `int`, ValueError otherwise |
| `Handler.IgnorePress` | telebot_calendar.py:101-103 | IGNORE answers the query and returns `(False, None)` |
| `Handler.DayPress` | telebot_calendar.py:104-107 | DAY deletes the message and returns `("DAY", date)` for the token's date |
| `Handler.DayPressOutsideMonth` | telebot_calendar.py:104-107 | a day not in the month still deletes the message, then raises ValueError, or OverflowError for a day beyond a C `int` |
| `Handler.StepBack` | telebot_calendar.py:109-113 | the minus-one-day step shows the previous calendar month, or overflows from January of year 1 |
| `Handler.StepForward` | telebot_calendar.py:116-120 | the 31-day step shows the next calendar month, or overflows from December 9999 |
| `Handler.PreviousMonthPress` | telebot_calendar.py:108-114 | PREVIOUS-MONTH edits in the previous calendar month's grid and returns `(None, None)`, or raises from January of year 1, whatever the day field holds |
| `Handler.NextMonthPress` | telebot_calendar.py:115-121 | NEXT-MONTH edits in the next calendar month's grid and returns `(None, None)`, or raises from December 9999, whatever the day field holds |
| `Handler.MonthsPress` | telebot_calendar.py:122-127 | MONTHS edits in the year's month picker and returns `("MONTH", None)`, whatever the day field holds |
| `Handler.MonthPress` | telebot_calendar.py:128-133 | MONTH edits in the grid of the token's month and returns `(None, None)`, whatever the day field holds |
| `Handler.CancelPress` | telebot_calendar.py:134-137 | CANCEL deletes the message and returns `("CANCEL", None)`, whatever the day field holds |
| `Handler.UnknownActionPress` | telebot_calendar.py:138-142 | any other action answers "ERROR!", deletes the message and returns `(None, None)` |
| `Handler.MonthPickerPress` | telebot_calendar.py:83-84 | a picker button opens the month its token carries: the first column opens `i + 1`, so "March" opens February |

## Left out

- The Telegram transport is not modelled. Bot calls are effects the handler lists. A failing bot call (a network error, a message already deleted) is not modelled.
- `Edit` carries the keyboard as a `View` (`DayGrid` or `MonthPicker`), not its rows. `Keyboard.Render` maps a view to the rows it stands for; `Handler.HandleQuery` promises that every view it sends satisfies `Keyboard.Sendable`, so `Render` applies to it.
- The clock is a `today` parameter. The defaults of `create_calendar` and `create_months_calendar`, which read the current year and month when an argument is `None`, are left out. The model always takes explicit arguments.
- The telebot `InlineKeyboardMarkup` class and its `row_width` row-splitting are left out. The day grid is built with a width of 7 and its rows hold at most 7 buttons. The month picker uses the library's default width of 3 and its rows hold 2 buttons. So each `keyboard.add` call is one row.
- `Decimal.ParseInt` accepts an optional sign followed by ASCII digits. It does not accept the surrounding whitespace, underscores or non-ASCII digits that Python's `int()` allows. The module's own tokens never contain them.
- `Decimal.ParseInt` does not model the 4300-digit limit that Python 3.11 and later put on `int()`. For a string of more than 4300 digits, leading zeros included, the model reads the number, where those Python versions raise ValueError.
- `CallbackData.Decode` inherits this, and so does `CallbackData.DecodeFailures`: for a year or month field of more than 4300 digits it reads the number (and then decodes or reports the date error for that value), where Python 3.11 and later raise ValueError from `int()`.
- `Decimal.IntToString` does not model the same 4300-digit limit on `str()` of an integer. For a number of more than 4300 digits the model prints it, where Python 3.11 and later raise ValueError.
- `Keyboard.CreateCalendar` inherits this: for a year of more than 4300 digits it renders the grid, where Python 3.11 and later raise ValueError from `str(year)` in `create_callback_data`. Its "fails exactly for a month outside 1..12" holds for years of at most 4300 digits. `Keyboard.CreateMonthsCalendar` and `CallbackData.CreateCallbackData` likewise print such a year.
- `Handler.DayChosen` inherits the `int()` limit too: for a day field of more than 4300 digits it reads the number (and then returns the date or reports the date error for that value), where Python 3.11 and later raise ValueError from `int()`.
- `Keyboard.CreateCalendar` reports a month outside 1..12 as one error kind, `BadMonth`. Python raises an `IndexError` from the month-name table for months above 12 or below -11. It raises an `IllegalMonthError` from `monthcalendar` for the months in between.
- `MonthCalendar.CycleYear` follows Python 3.8 and later for years outside 1..9999. Those years are mapped into range with `2000 + y % 400`. Older Python versions raise instead.
- The example bot and the packaging script are not part of this model.

=== FILE: callback_data.dfy ===
/** The callback-data token a button carries: four fields joined by ";", built by
    `create_callback_data` and taken apart again at the top of `calendar_query_handler`. */
module CallbackData {
  import opened Wrappers
  import opened Errors
  import opened Text
  import opened Decimal
  import opened Gregorian

  const Separator: char := ';'

  /** `create_callback_data`: the action, the printed year, the printed month and the day
      field, joined with ";". The `day` field is already a string: the renderer passes
      `""` or the printed day. When neither the action nor the day holds a ";", the token
      splits back into exactly the four strings that were joined. */
  function CreateCallbackData(action: string, year: int, month: int, day: string): (token: string)
    ensures Separator !in action && Separator !in day ==>
      Split(token, Separator) == [action, IntToString(year), IntToString(month), day]
  {
    var parts := [action, IntToString(year), IntToString(month), day];
    IntToStringAvoids(year, Separator);
    IntToStringAvoids(month, Separator);
    if Separator !in action && Separator !in day then
      SplitOfJoin(parts, Separator);
      Join(parts, Separator)
    else
      Join(parts, Separator)
  }

  /** The four fields of a token, after `int()` on year and month. */
  datatype Fields = Fields(action: string, year: int, month: int, day: string)

  /** The handler's first two steps: unpack the ";"-split data into exactly four fields,
      then build the first day of the named month, with the exception each step raises.
      A decoded token is the join of its action, a spelling of its year, a spelling of
      its month and its day. */
  function Decode(data: string): (r: Result<Fields, Error>)
    ensures |Split(data, Separator)| != 4 ==> r == Err(UnpackMismatch)
    ensures r.Ok? ==>
      && Separator !in r.value.action && Separator !in r.value.day
      && ValidDate(Date(r.value.year, r.value.month, 1))
      && exists y, m :: && data == Join([r.value.action, y, m, r.value.day], Separator)
                        && ParseInt(y) == Some(r.value.year) && ParseInt(m) == Some(r.value.month)
  {
    var parts := Split(data, Separator);
    if |parts| != 4 then Err(UnpackMismatch)
    else
      match (ParseInt(parts[1]), ParseInt(parts[2]))
      case (None, _) => Err(NotAnInteger)
      case (_, None) => Err(NotAnInteger)
      case (Some(year), Some(month)) =>
        match MakeDate(year, month, 1)
        case Err(e) => Err(e)
        case Ok(_) =>
          assert parts == [parts[0], parts[1], parts[2], parts[3]];
          Ok(Fields(parts[0], year, month, parts[3]))
  }

  /** The converse: any four pieces whose middle two `int()` reads as a year and month
      with a valid first day decode to those fields, whatever spelling the numbers use
      (a `+` sign, leading zeros). */
  lemma DecodeOfPieces(action: string, y: string, m: string, day: string, year: int, month: int)
    requires Separator !in action && Separator !in day
    requires ParseInt(y) == Some(year) && ParseInt(m) == Some(month)
    requires ValidDate(Date(year, month, 1))
    ensures Decode(Join([action, y, m, day], Separator)) == Ok(Fields(action, year, month, day))
  {
    ParseIntAvoids(y, Separator);
    ParseIntAvoids(m, Separator);
    SplitOfJoin([action, y, m, day], Separator);
  }

  /** Round trip: a token built for a month `datetime` can represent decodes to the
      same fields, so the four-way unpack never fails on the module's own tokens. */
  lemma DecodeOfCallbackData(action: string, year: int, month: int, day: string)
    requires Separator !in action && Separator !in day
    requires ValidDate(Date(year, month, 1))
    ensures Decode(CreateCallbackData(action, year, month, day)) == Ok(Fields(action, year, month, day))
  {
    ParseOfIntToString(year);
    ParseOfIntToString(month);
  }

  /** Decoding fails exactly when the split does not give four pieces, the year or month
      is not an integer, or the first of that month is not a `datetime`; a year or month
      `int()` rejects raises ValueError, and a bad first of the month raises OverflowError
      for a field beyond a C `int` and ValueError otherwise, however the numbers are spelled. */
  lemma DecodeFailures(data: string)
    ensures
      var parts := Split(data, Separator);
      Decode(data).Err? <==>
        || |parts| != 4
        || ParseInt(parts[1]).None?
        || ParseInt(parts[2]).None?
        || !ValidDate(Date(ParseInt(parts[1]).value, ParseInt(parts[2]).value, 1))
    ensures
      var parts := Split(data, Separator);
      |parts| == 4 && (ParseInt(parts[1]).None? || ParseInt(parts[2]).None?) ==>
        Decode(data) == Err(NotAnInteger)
    ensures
      var parts := Split(data, Separator);
      |parts| == 4 && ParseInt(parts[1]).Some? && ParseInt(parts[2]).Some? ==>
        var year, month := ParseInt(parts[1]).value, ParseInt(parts[2]).value;
        !ValidDate(Date(year, month, 1)) ==>
          Decode(data) == Err(if FitsCInt(year) && FitsCInt(month) then DateOutOfRange else DateOverflow)
  {
  }

  /** Re-encoding what was decoded gives a token that decodes to the same fields: the
      decoded fields are a fixed point of the codec even when the input spelled the
      numbers differently (a `+` sign or leading zeros). */
  lemma DecodeIsCanonical(data: string)
    requires Decode(data).Ok?
    ensures
      var f := Decode(data).value;
      Decode(CreateCallbackData(f.action, f.year, f.month, f.day)) == Decode(data)
  {
    var f := Decode(data).value;
    DecodeOfCallbackData(f.action, f.year, f.month, f.day);
  }
}

=== FILE: decimal.dfy ===
/** Python's `str(n)` and `int(s)` on integers, restricted to plain decimal notation. */
module Decimal {
  import opened Wrappers

  predicate IsDigit(c: char) { '0' <= c <= '9' }

  predicate AllDigits(s: string) { forall i :: 0 <= i < |s| ==> IsDigit(s[i]) }

  function DigitChar(d: int): (c: char)
    requires 0 <= d < 10
    ensures IsDigit(c) && c as int - '0' as int == d
  {
    ('0' as int + d) as char
  }

  /** Decimal digits of a natural number, most significant first, without leading zeros. */
  function NatToString(n: nat): (s: string)
    ensures |s| >= 1 && AllDigits(s)
    ensures |s| > 1 ==> s[0] != '0'
  {
    if n < 10 then [DigitChar(n)] else NatToString(n / 10) + [DigitChar(n % 10)]
  }

  /** `str(n)`: a minus sign exactly for negative numbers, then the digits of `|n|`
      without leading zeros, so `0` prints as `"0"` and never as `"-0"`. */
  function IntToString(n: int): (s: string)
    ensures |s| >= 1
    ensures forall i :: 0 <= i < |s| ==> IsDigit(s[i]) || (i == 0 && s[i] == '-')
    ensures (s[0] == '-') <==> n < 0
    ensures n < 0 ==> |s| >= 2
    ensures n >= 0 && |s| > 1 ==> s[0] != '0'
    ensures n < 0 && |s| > 2 ==> s[1] != '0'
  {
    if n < 0 then "-" + NatToString(-n) else NatToString(n)
  }

  /** The number a string of digits denotes. */
  function DigitsValue(s: string): nat
    requires AllDigits(s)
  {
    if |s| == 0 then 0
    else DigitsValue(s[..|s| - 1]) * 10 + (s[|s| - 1] as int - '0' as int)
  }

  /** `int(s)` for an optional sign followed by at least one ASCII digit; anything else raises.
      A digit string reads as its digits' value, negated after a `-`. */
  function ParseInt(s: string): (r: Option<int>)
    ensures r.Some? ==> |s| >= 1 && forall i :: 0 <= i < |s| ==> IsDigit(s[i]) || (i == 0 && s[i] in "+-")
    ensures |s| >= 1 && AllDigits(s) ==> r == Some(DigitsValue(s))
    ensures |s| >= 2 && (s[0] == '-' || s[0] == '+') && AllDigits(s[1..]) ==>
      r == Some(if s[0] == '-' then -(DigitsValue(s[1..]) as int) else DigitsValue(s[1..]) as int)
  {
    if |s| >= 2 && (s[0] == '-' || s[0] == '+') && AllDigits(s[1..]) then
      var magnitude: int := DigitsValue(s[1..]);
      Some(if s[0] == '-' then -magnitude else magnitude)
    else if |s| >= 1 && AllDigits(s) then
      Some(DigitsValue(s))
    else
      None
  }

  lemma {:induction false} DigitsOfNat(n: nat)
    ensures DigitsValue(NatToString(n)) == n
  {
    var s := NatToString(n);
    if n >= 10 {
      DigitsOfNat(n / 10);
      assert s[..|s| - 1] == NatToString(n / 10);
    }
  }

  /** Round trip: `int(str(n)) == n` for every integer. */
  lemma ParseOfIntToString(n: int)
    ensures ParseInt(IntToString(n)) == Some(n)
  {
    if n < 0 {
      SignedParse(-n);
    } else {
      DigitsOfNat(n);
    }
  }

  /** A minus sign before the digits of `m` reads as `-m`. */
  lemma SignedParse(m: nat)
    ensures ParseInt("-" + NatToString(m)) == Some(-(m as int))
  {
    var s := "-" + NatToString(m);
    DigitsOfNat(m);
    assert s[0] == '-' && s[1..] == NatToString(m);
  }

  /** `str` is injective on integers. */
  lemma IntToStringInjective(a: int, b: int)
    ensures IntToString(a) == IntToString(b) <==> a == b
  {
    if IntToString(a) == IntToString(b) {
      ParseOfIntToString(a);
      ParseOfIntToString(b);
    }
  }

  /** A string `int()` accepts holds no character other than a digit or a sign. */
  lemma ParseIntAvoids(s: string, c: char)
    requires ParseInt(s).Some? && !IsDigit(c) && c != '-' && c != '+'
    ensures c !in s
  {
  }

  /** The printed form of an integer never holds a character other than a digit or `-`. */
  lemma IntToStringAvoids(n: int, c: char)
    requires !IsDigit(c) && c != '-'
    ensures c !in IntToString(n)
  {
  }
}

=== FILE: gregorian.dfy ===
/** The proleptic Gregorian calendar as Python's `datetime` sees it: dates of years
    1..9999, counted as ordinals (0001-01-01 is day 1), with the weekday and the
    `timedelta` arithmetic derived from that day count. */
module Gregorian {
  import opened Wrappers
  import opened Errors

  const MinYear: int := 1
  const MaxYear: int := 9999
  /** Ordinal of 9999-12-31, the last day a `datetime` can hold. */
  const MaxOrdinal: int := 3652059

  predicate IsLeapYear(y: int)
  {
    y % 4 == 0 && (y % 100 != 0 || y % 400 == 0)
  }

  function DaysInYear(y: int): int
  {
    if IsLeapYear(y) then 366 else 365
  }

  function DaysInMonth(y: int, m: int): (n: int)
    requires 1 <= m <= 12
    ensures 28 <= n <= 31
    ensures n == 29 <==> m == 2 && IsLeapYear(y)
    ensures n == 28 <==> m == 2 && !IsLeapYear(y)
  {
    if m == 2 && IsLeapYear(y) then 29
    else [31, 28, 31, 30, 31, 30, 31, 31, 30, 31, 30, 31][m - 1]
  }

  /** Days of year `y` that come before the first of month `m`. */
  function DaysBeforeMonth(y: int, m: int): int
    requires 1 <= m <= 12
  {
    [0, 31, 59, 90, 120, 151, 181, 212, 243, 273, 304, 334][m - 1]
      + (if m > 2 && IsLeapYear(y) then 1 else 0)
  }

  /** Days before January 1st of year `y`, counting from 0001-01-01. */
  function DaysBeforeYear(y: int): int
  {
    var p := y - 1;
    p * 365 + p / 4 - p / 100 + p / 400
  }

  datatype Date = Date(year: int, month: int, day: int)

  /** The dates `datetime(year, month, day)` accepts without raising. */
  predicate ValidDate(d: Date)
  {
    && MinYear <= d.year <= MaxYear
    && 1 <= d.month <= 12
    && 1 <= d.day <= DaysInMonth(d.year, d.month)
  }

  /** The range of a C `int`, the type `datetime` converts each of its fields to. */
  const CIntMin: int := -0x8000_0000
  const CIntMax: int := 0x7FFF_FFFF

  predicate FitsCInt(n: int) { CIntMin <= n <= CIntMax }

  /** `datetime(year, month, day)`: a field that is no C `int` raises OverflowError while
      the arguments are read, before any range is checked; a field outside its range
      raises ValueError. */
  function MakeDate(year: int, month: int, day: int): (r: Result<Date, Error>)
    ensures r.Ok? <==> ValidDate(Date(year, month, day))
    ensures r.Ok? ==> r.value == Date(year, month, day)
    ensures r.Err? ==> r.error == (if FitsCInt(year) && FitsCInt(month) && FitsCInt(day)
                                   then DateOutOfRange else DateOverflow)
  {
    if !(FitsCInt(year) && FitsCInt(month) && FitsCInt(day)) then Err(DateOverflow)
    else if ValidDate(Date(year, month, day)) then Ok(Date(year, month, day))
    else Err(DateOutOfRange)
  }

  /** `date.toordinal()`. */
  function ToOrdinal(d: Date): int
    requires ValidDate(d)
  {
    DaysBeforeYear(d.year) + DaysBeforeMonth(d.year, d.month) + d.day
  }

  /** `date.weekday()`: Monday is 0, Sunday is 6; 0001-01-01 was a Monday. */
  function Weekday(d: Date): (w: int)
    requires ValidDate(d)
    ensures 0 <= w < 7
    ensures d == Date(MinYear, 1, 1) ==> w == 0
  {
    (ToOrdinal(d) + 6) % 7
  }

  // ---------------------------------------------------------------- day counts

  /** The month table adds up: each month starts where the previous one ended. */
  lemma MonthsAddUp(y: int, m: int)
    requires 1 <= m <= 12
    ensures m < 12 ==> DaysBeforeMonth(y, m + 1) == DaysBeforeMonth(y, m) + DaysInMonth(y, m)
    ensures m == 12 ==> DaysBeforeMonth(y, m) + DaysInMonth(y, m) == DaysInYear(y)
  {
  }

  /** Consecutive year starts are one year length apart. */
  lemma YearLength(y: int)
    ensures DaysBeforeYear(y + 1) == DaysBeforeYear(y) + DaysInYear(y)
  {
    var p := y - 1;
    var a4, a100, a400 := LeapSteps(y);
    LeapIndicator(y);
    assert y * 365 == p * 365 + 365;
    assert DaysBeforeYear(y) == p * 365 + p / 4 - p / 100 + p / 400;
    assert DaysBeforeYear(y + 1) == p * 365 + 365 + (p / 4 + a4) - (p / 100 + a100) + (p / 400 + a400);
  }

  /** A year is leap by the 4 / 100 / 400 rule: the three divisibility counts combine to 1 or 0. */
  lemma LeapIndicator(y: int)
    ensures DaysInYear(y) == 365 + (if y % 4 == 0 then 1 else 0) - (if y % 100 == 0 then 1 else 0)
                                 + (if y % 400 == 0 then 1 else 0)
  {
    if y % 400 == 0 {
      var q := y / 400;
      assert y == 100 * (4 * q);
      assert y == 4 * (100 * q);
    } else if y % 100 == 0 {
      var q := y / 100;
      assert y == 4 * (25 * q);
    }
  }

  /** How the three leap-year counts change from `y - 1` to `y`. */
  lemma LeapSteps(y: int) returns (a4: int, a100: int, a400: int)
    ensures a4 == (if y % 4 == 0 then 1 else 0) && y / 4 == (y - 1) / 4 + a4
    ensures a100 == (if y % 100 == 0 then 1 else 0) && y / 100 == (y - 1) / 100 + a100
    ensures a400 == (if y % 400 == 0 then 1 else 0) && y / 400 == (y - 1) / 400 + a400
  {
    a4 := if y % 4 == 0 then 1 else 0;
    a100 := if y % 100 == 0 then 1 else 0;
    a400 := if y % 400 == 0 then 1 else 0;
    DivByStep(y, 4);
    DivByStep(y, 100);
    DivByStep(y, 400);
  }

  lemma DivByStep(y: int, k: int)
    requires k == 4 || k == 100 || k == 400
    ensures y / k == (y - 1) / k + (if y % k == 0 then 1 else 0)
  {
    if k == 4 {
      assert y / 4 == (y - 1) / 4 + (if y % 4 == 0 then 1 else 0);
    } else if k == 100 {
      assert y / 100 == (y - 1) / 100 + (if y % 100 == 0 then 1 else 0);
    } else {
      assert y / 400 == (y - 1) / 400 + (if y % 400 == 0 then 1 else 0);
    }
  }

  lemma {:induction false} YearsAddUp(a: int, b: int)
    requires a <= b
    ensures DaysBeforeYear(a) + 365 * (b - a) <= DaysBeforeYear(b)
    ensures a < b ==> DaysBeforeYear(a) + DaysInYear(a) <= DaysBeforeYear(b)
    decreases b - a
  {
    if a < b {
      YearLength(a);
      YearsAddUp(a + 1, b);
    }
  }

  /** A date's ordinal lies within its own year. */
  lemma OrdinalInYear(d: Date)
    requires ValidDate(d)
    ensures DaysBeforeYear(d.year) < ToOrdinal(d) <= DaysBeforeYear(d.year) + DaysInYear(d.year)
    ensures ToOrdinal(d) == DaysBeforeYear(d.year) + DaysInYear(d.year) <==> d.month == 12 && d.day == 31
  {
  }

  /** Every valid date has an ordinal in 1..MaxOrdinal; the two ends belong to 0001-01-01 and 9999-12-31. */
  lemma OrdinalBounds(d: Date)
    requires ValidDate(d)
    ensures 1 <= ToOrdinal(d) <= MaxOrdinal
    ensures ToOrdinal(d) == 1 <==> d == Date(MinYear, 1, 1)
    ensures ToOrdinal(d) == MaxOrdinal <==> d == Date(MaxYear, 12, 31)
  {
    OrdinalInYear(d);
    YearsAddUp(MinYear, d.year);
    YearsAddUp(d.year, MaxYear);
    YearLength(MaxYear);
  }

  /** Different dates have different ordinals, so `ToOrdinal` identifies a date. */
  lemma OrdinalInjective(a: Date, b: Date)
    requires ValidDate(a) && ValidDate(b)
    ensures ToOrdinal(a) == ToOrdinal(b) <==> a == b
  {
    if a.year != b.year {
      var (x, z) := if a.year < b.year then (a, b) else (b, a);
      OrdinalInYear(x);
      OrdinalInYear(z);
      YearsAddUp(x.year, z.year);
    } else if a.month != b.month {
      var (x, z) := if a.month < b.month then (a, b) else (b, a);
      MonthsBefore(x.year, x.month, z.month);
    }
  }

  lemma {:induction false} MonthsBefore(y: int, m: int, n: int)
    requires 1 <= m < n <= 12
    ensures DaysBeforeMonth(y, m) + DaysInMonth(y, m) <= DaysBeforeMonth(y, n)
    decreases n - m
  {
    MonthsAddUp(y, m);
    if m + 1 < n {
      MonthsBefore(y, m + 1, n);
    }
  }

  // ---------------------------------------------------------------- timedelta

  /** The day after `d`; `None` past 9999-12-31, where `datetime` overflows. */
  function NextDay(d: Date): (r: Option<Date>)
    requires ValidDate(d)
    ensures r.Some? ==> ValidDate(r.value) && ToOrdinal(r.value) == ToOrdinal(d) + 1
    ensures r.None? <==> d == Date(MaxYear, 12, 31)
  {
    if d.day < DaysInMonth(d.year, d.month) then
      WithinMonth(d.year, d.month, d.day);
      Some(Date(d.year, d.month, d.day + 1))
    else if d.month < 12 then
      AcrossMonth(d.year, d.month);
      Some(Date(d.year, d.month + 1, 1))
    else if d.year < MaxYear then
      AcrossYear(d.year);
      Some(Date(d.year + 1, 1, 1))
    else None
  }

  /** The day before `d`; `None` before 0001-01-01, where `datetime` overflows. */
  function PrevDay(d: Date): (r: Option<Date>)
    requires ValidDate(d)
    ensures r.Some? ==> ValidDate(r.value) && ToOrdinal(r.value) == ToOrdinal(d) - 1
    ensures r.None? <==> d == Date(MinYear, 1, 1)
  {
    if d.day > 1 then
      WithinMonth(d.year, d.month, d.day - 1);
      Some(Date(d.year, d.month, d.day - 1))
    else if d.month > 1 then
      AcrossMonth(d.year, d.month - 1);
      Some(Date(d.year, d.month - 1, DaysInMonth(d.year, d.month - 1)))
    else if d.year > MinYear then
      AcrossYear(d.year - 1);
      Some(Date(d.year - 1, 12, 31))
    else None
  }

  /** Inside a month, the next day is the next ordinal. */
  lemma WithinMonth(y: int, m: int, day: int)
    requires ValidDate(Date(y, m, day)) && day < DaysInMonth(y, m)
    ensures ValidDate(Date(y, m, day + 1))
    ensures ToOrdinal(Date(y, m, day + 1)) == ToOrdinal(Date(y, m, day)) + 1
  {
  }

  /** The first of a month follows the last day of the month before. */
  lemma AcrossMonth(y: int, m: int)
    requires MinYear <= y <= MaxYear && 1 <= m < 12
    ensures ValidDate(Date(y, m, DaysInMonth(y, m))) && ValidDate(Date(y, m + 1, 1))
    ensures ToOrdinal(Date(y, m + 1, 1)) == ToOrdinal(Date(y, m, DaysInMonth(y, m))) + 1
  {
    MonthsAddUp(y, m);
  }

  /** New Year's Day follows the 31st of December before it. */
  lemma AcrossYear(y: int)
    requires MinYear <= y < MaxYear
    ensures ValidDate(Date(y, 12, 31)) && ValidDate(Date(y + 1, 1, 1))
    ensures ToOrdinal(Date(y + 1, 1, 1)) == ToOrdinal(Date(y, 12, 31)) + 1
  {
    YearLength(y);
    MonthsAddUp(y, 12);
  }

  /** `d + timedelta(days=k)`: the date whose ordinal is `k` more than `d`'s, or an
      overflow when that ordinal leaves 1..MaxOrdinal. Walks one day at a time. */
  function AddDays(d: Date, k: int): (r: Option<Date>)
    requires ValidDate(d)
    ensures r.Some? ==> ValidDate(r.value) && ToOrdinal(r.value) == ToOrdinal(d) + k
    ensures r.None? <==> !(1 <= ToOrdinal(d) + k <= MaxOrdinal)
  {
    OrdinalBounds(d);
    if k >= 0 then Forward(d, k) else Backward(d, -k)
  }

  /** `n` steps of `NextDay`, stopping at the first overflow. */
  function Forward(d: Date, n: nat): (r: Option<Date>)
    requires ValidDate(d)
    ensures r.Some? ==> ValidDate(r.value) && ToOrdinal(r.value) == ToOrdinal(d) + n
    ensures r.None? <==> ToOrdinal(d) + n > MaxOrdinal
  {
    if n == 0 then Some(d)
    else
      var p := Forward(d, n - 1);
      if p.None? then None
      else
        OrdinalBounds(p.value);
        NextDay(p.value)
  }

  /** `n` steps of `PrevDay`, stopping at the first overflow. */
  function Backward(d: Date, n: nat): (r: Option<Date>)
    requires ValidDate(d)
    ensures r.Some? ==> ValidDate(r.value) && ToOrdinal(r.value) == ToOrdinal(d) - n
    ensures r.None? <==> ToOrdinal(d) - n < 1
  {
    if n == 0 then Some(d)
    else
      var p := Backward(d, n - 1);
      if p.None? then None
      else
        OrdinalBounds(p.value);
        PrevDay(p.value)
  }

  /** Weekdays cycle with the day count: `k` days later is `k` weekdays later, modulo
      the week. */
  lemma WeekdayAfter(d: Date, k: int)
    requires ValidDate(d) && AddDays(d, k).Some?
    ensures Weekday(AddDays(d, k).value) == (Weekday(d) + k) % 7
  {
    var e := AddDays(d, k).value;
    var o, o' := ToOrdinal(d), ToOrdinal(e);
    assert o' == o + k;
    WeekShift(o, o', k);
    assert Weekday(e) == (o' + 6) % 7 && Weekday(d) == (o + 6) % 7;
  }

  lemma WeekShift(o: int, o': int, k: int)
    requires o' == o + k
    ensures (o' + 6) % 7 == ((o + 6) % 7 + k) % 7
  {
    var q := (o + 6) / 7;
    assert o' + 6 == 7 * q + ((o + 6) % 7 + k);
  }

  // ---------------------------------------------------------------- month arithmetic

  /** Months counted on one line: (y, m) is month number 12*y + m - 1. */
  function MonthIndex(y: int, m: int): int
  {
    12 * y + m - 1
  }

  function MonthAt(i: int): (ym: (int, int))
    ensures 1 <= ym.1 <= 12 && MonthIndex(ym.0, ym.1) == i
  {
    (i / 12, i % 12 + 1)
  }

  /** Calendar-month addition: the month after (y, m). */
  function NextMonth(y: int, m: int): (int, int)
  {
    MonthAt(MonthIndex(y, m) + 1)
  }

  /** Calendar-month subtraction: the month before (y, m). */
  function PreviousMonth(y: int, m: int): (int, int)
  {
    MonthAt(MonthIndex(y, m) - 1)
  }

  /** A month index names exactly one (year, month) pair. */
  lemma MonthIndexInjective(y: int, m: int, y': int, m': int)
    requires 1 <= m <= 12 && 1 <= m' <= 12
    ensures MonthIndex(y, m) == MonthIndex(y', m') <==> y == y' && m == m'
  {
  }

  /** The month after December is January of the next year; otherwise the year stays. */
  lemma NextMonthRollsOver(y: int, m: int)
    requires 1 <= m <= 12
    ensures NextMonth(y, m) == if m == 12 then (y + 1, 1) else (y, m + 1)
  {
    var ym := NextMonth(y, m);
    if m == 12 {
      MonthIndexInjective(ym.0, ym.1, y + 1, 1);
    } else {
      MonthIndexInjective(ym.0, ym.1, y, m + 1);
    }
  }

  /** The month before January is December of the previous year; otherwise the year stays. */
  lemma PreviousMonthRollsBack(y: int, m: int)
    requires 1 <= m <= 12
    ensures PreviousMonth(y, m) == if m == 1 then (y - 1, 12) else (y, m - 1)
  {
    var ym := PreviousMonth(y, m);
    if m == 1 {
      MonthIndexInjective(ym.0, ym.1, y - 1, 12);
    } else {
      MonthIndexInjective(ym.0, ym.1, y, m - 1);
    }
  }

  /** First-of-month plus 31 days always lands in the calendar month after (y, m),
      and overflows only from December 9999. */
  lemma NextMonthByOffset(y: int, m: int)
    requires MinYear <= y <= MaxYear && 1 <= m <= 12
    ensures
      var r := AddDays(Date(y, m, 1), 31);
      && (r.None? <==> y == MaxYear && m == 12)
      && (r.Some? ==> (r.value.year, r.value.month) == NextMonth(y, m))
  {
    var first := Date(y, m, 1);
    var n := DaysInMonth(y, m);
    var next := NextMonth(y, m);
    NextMonthRollsOver(y, m);
    MonthsAddUp(y, m);
    OrdinalBounds(first);
    if y == MaxYear && m == 12 {
      assert ToOrdinal(first) + 31 > MaxOrdinal;
    } else {
      var target := Date(next.0, next.1, 32 - n);
      if m == 12 {
        YearLength(y);
      }
      assert ValidDate(target) && ToOrdinal(target) == ToOrdinal(first) + 31;
      OrdinalBounds(target);
      var r := AddDays(first, 31);
      OrdinalInjective(r.value, target);
    }
  }

  /** First-of-month minus one day is the last day of the calendar month before (y, m),
      and overflows only from January of year 1. */
  lemma PreviousMonthByOffset(y: int, m: int)
    requires MinYear <= y <= MaxYear && 1 <= m <= 12
    ensures
      var r := AddDays(Date(y, m, 1), -1);
      var prev := PreviousMonth(y, m);
      && (r.None? <==> y == MinYear && m == 1)
      && (r.Some? ==> r.value == Date(prev.0, prev.1, DaysInMonth(prev.0, prev.1)))
  {
    PreviousMonthRollsBack(y, m);
    var first := Date(y, m, 1);
    assert AddDays(first, -1) == Backward(first, 1);
    assert Backward(first, 1) == PrevDay(first);
  }
}

=== FILE: handler.dfy ===
/** `calendar_query_handler`: one button press, decoded and turned into the bot calls it
    makes and the tuple it returns. The bot calls are emitted as `Effect` values in the
    order the source makes them; `datetime.now()` is the `today` parameter. */
module Handler {
  import opened Wrappers
  import opened Errors
  import opened Decimal
  import opened Gregorian
  import opened CallbackData
  import opened Keyboard

  /** The parts of a Telegram callback query the handler reads. */
  datatype CallbackQuery = CallbackQuery(id: string, data: string, chatId: int, messageId: int, text: string)

  /** A call into the bot. */
  datatype Effect =
    | Answer(queryId: string, notice: Option<string>)            // bot.answer_callback_query
    | Delete(chatId: int, messageId: int)                        // bot.delete_message
    | Edit(chatId: int, messageId: int, text: string, keyboard: View)  // bot.edit_message_text

  /** First element of the returned tuple: `False`, `None`, or a string. */
  datatype Tag = FalseTag | NoneTag | NameTag(name: string)

  /** The handler either returns a pair or raises. */
  datatype Outcome = Returned(tag: Tag, date: Option<Date>) | Raised(error: Error)

  datatype Response = Response(effects: seq<Effect>, outcome: Outcome)

  /** Every effect of a response concerns the pressed button: answers go to this query,
      deletions and edits to this chat and message, and edits keep the message text. */
  predicate AddressedTo(e: Effect, call: CallbackQuery)
  {
    match e
    case Answer(id, _) => id == call.id
    case Delete(chat, msg) => chat == call.chatId && msg == call.messageId
    case Edit(chat, msg, text, _) => chat == call.chatId && msg == call.messageId && text == call.text
  }

  /** An edit carries a keyboard the handler may send, so `Render` gives its rows. */
  predicate Renders(e: Effect)
  {
    e.Edit? ==> Sendable(e.keyboard)
  }

  function EditWith(call: CallbackQuery, keyboard: View): Effect
  {
    Edit(call.chatId, call.messageId, call.text, keyboard)
  }

  /** The month grid reached by a `timedelta` step from the first of (year, month). */
  function StepMonth(call: CallbackQuery, f: Fields, days: int, today: Date): (r: Response)
    requires ValidDate(Date(f.year, f.month, 1))
    ensures r == Response([], Raised(DateOverflow)) || (|r.effects| == 1 && r.effects[0].Edit? && AddressedTo(r.effects[0], call) && r.outcome == Returned(NoneTag, None))
    ensures forall i :: 0 <= i < |r.effects| ==> Renders(r.effects[i])
  {
    match AddDays(Date(f.year, f.month, 1), days)
    case None => Response([], Raised(DateOverflow))
    case Some(d) => Response([EditWith(call, DayGrid(d.year, d.month, today))], Returned(NoneTag, None))
  }

  /** `calendar_query_handler(bot, call)`: decode, then dispatch on the action. */
  function HandleQuery(call: CallbackQuery, today: Date): (r: Response)
    ensures forall i :: 0 <= i < |r.effects| ==> AddressedTo(r.effects[i], call)
    ensures forall i :: 0 <= i < |r.effects| ==> Renders(r.effects[i])
    ensures |r.effects| <= 2
    ensures Decode(call.data).Err? ==> r == Response([], Raised(Decode(call.data).error))
    ensures r.outcome.Returned? ==> |r.effects| >= 1
    ensures r.outcome.Returned? && r.outcome.date.Some? ==> ValidDate(r.outcome.date.value)
    ensures r.outcome.Raised? && r.effects != [] ==>
      Decode(call.data).Ok? && Decode(call.data).value.action == "DAY"
  {
    match Decode(call.data)
    case Err(e) => Response([], Raised(e))
    case Ok(f) => Dispatch(call, f, today)
  }

  /** The actions the handler tells apart; any other string is `Unknown`. */
  datatype Action = Ignore | Day | Previous | Next | Months | Month | Cancel | Unknown

  /** The `if`/`elif` chain of string comparisons on the action field: each of the seven
      action names the module emits has its own branch, every other string falls through. */
  function ActionOf(action: string): (a: Action)
    ensures a == Unknown <==>
      action !in {"IGNORE", "DAY", "PREVIOUS-MONTH", "NEXT-MONTH", "MONTHS", "MONTH", "CANCEL"}
  {
    if action == "IGNORE" then Ignore
    else if action == "DAY" then Day
    else if action == "PREVIOUS-MONTH" then Previous
    else if action == "NEXT-MONTH" then Next
    else if action == "MONTHS" then Months
    else if action == "MONTH" then Month
    else if action == "CANCEL" then Cancel
    else Unknown
  }

  /** The seven action names are told apart by their length and first letter. */
  lemma ActionNames()
    ensures ActionOf("IGNORE") == Ignore && ActionOf("DAY") == Day
    ensures ActionOf("PREVIOUS-MONTH") == Previous && ActionOf("NEXT-MONTH") == Next
    ensures ActionOf("MONTHS") == Months && ActionOf("MONTH") == Month
    ensures ActionOf("CANCEL") == Cancel
  {
    assert "CANCEL"[0] != "IGNORE"[0] && "CANCEL"[0] != "MONTHS"[0] && "MONTHS"[0] != "IGNORE"[0];
  }

  /** The branch taken for fields that passed the date check. */
  function Dispatch(call: CallbackQuery, f: Fields, today: Date): (r: Response)
    requires ValidDate(Date(f.year, f.month, 1))
    ensures forall i :: 0 <= i < |r.effects| ==> AddressedTo(r.effects[i], call)
    ensures forall i :: 0 <= i < |r.effects| ==> Renders(r.effects[i])
    ensures 1 <= |r.effects| <= 2 || r == Response([], Raised(DateOverflow))
    ensures r.outcome.Returned? && r.outcome.date.Some? ==> ValidDate(r.outcome.date.value)
    ensures r.outcome.Raised? && r.effects != [] ==> ActionOf(f.action) == Day
  {
    match ActionOf(f.action)
    case Ignore => Response([Answer(call.id, None)], Returned(FalseTag, None))
    case Day => DayChosen(call, f)
    case Previous => StepMonth(call, f, -1, today)
    case Next => StepMonth(call, f, 31, today)
    case Months => Response([EditWith(call, MonthPicker(f.year))], Returned(NameTag("MONTH"), None))
    case Month => Response([EditWith(call, DayGrid(f.year, f.month, today))], Returned(NoneTag, None))
    case Cancel => Response([Delete(call.chatId, call.messageId)], Returned(NameTag("CANCEL"), None))
    case Unknown =>
      Response([Answer(call.id, Some("ERROR!")), Delete(call.chatId, call.messageId)], Returned(NoneTag, None))
  }

  /** The DAY branch: delete the message, then build `datetime(year, month, int(day))`.
      It returns exactly when the day field reads as a day of the token's month. */
  function DayChosen(call: CallbackQuery, f: Fields): (r: Response)
    ensures r.effects == [Delete(call.chatId, call.messageId)]
    ensures r.outcome.Returned? <==>
      ParseInt(f.day).Some? && ValidDate(Date(f.year, f.month, ParseInt(f.day).value))
    ensures r.outcome.Returned? ==>
      r.outcome == Returned(NameTag("DAY"), Some(Date(f.year, f.month, ParseInt(f.day).value)))
    ensures ParseInt(f.day).None? ==> r.outcome == Raised(NotAnInteger)
    ensures ParseInt(f.day).Some? && !ValidDate(Date(f.year, f.month, ParseInt(f.day).value)) ==>
      r.outcome == Raised(
        if FitsCInt(f.year) && FitsCInt(f.month) && FitsCInt(ParseInt(f.day).value)
        then DateOutOfRange else DateOverflow)
  {
    var deleted := [Delete(call.chatId, call.messageId)];
    match ParseInt(f.day)
    case None => Response(deleted, Raised(NotAnInteger))
    case Some(day) =>
      match MakeDate(f.year, f.month, day)
      case Ok(d) => Response(deleted, Returned(NameTag("DAY"), Some(d)))
      case Err(e) => Response(deleted, Raised(e))
  }

  // ---------------------------------------------------------------- the transition table

  /** The query with its data replaced by the token of a pressed button. */
  function Press(call: CallbackQuery, action: string, year: int, month: int, day: string): CallbackQuery
  {
    call.(data := CreateCallbackData(action, year, month, day))
  }

  /** A token the module builds for a month `datetime` can represent decodes, so the
      handler goes straight to the branch for its action. */
  lemma PressDispatches(call: CallbackQuery, action: string, year: int, month: int, day: string, today: Date)
    requires Separator !in action && Separator !in day && ValidDate(Date(year, month, 1))
    ensures HandleQuery(Press(call, action, year, month, day), today)
         == Dispatch(Press(call, action, year, month, day), Fields(action, year, month, day), today)
  {
    DecodeOfCallbackData(action, year, month, day);
  }

  /** Data that does not split into exactly four fields raises before any bot call. */
  lemma UnpackGuard(call: CallbackQuery, today: Date)
    requires |Text.Split(call.data, Separator)| != 4
    ensures HandleQuery(call, today) == Response([], Raised(UnpackMismatch))
  {
  }

  /** The year and month are checked before the action is looked at: a token whose first of
      the month is no `datetime` raises with no bot call, even for IGNORE; a year or month
      beyond a C `int` raises OverflowError rather than ValueError. */
  lemma DateGuard(call: CallbackQuery, action: string, year: int, month: int, day: string, today: Date)
    requires Separator !in action && Separator !in day
    requires !ValidDate(Date(year, month, 1))
    ensures HandleQuery(Press(call, action, year, month, day), today) ==
      Response([], Raised(if FitsCInt(year) && FitsCInt(month) then DateOutOfRange else DateOverflow))
  {
    ParseOfIntToString(year);
    ParseOfIntToString(month);
  }

  /** IGNORE only answers the query and returns `(False, None)`, whatever its day field. */
  lemma IgnorePress(call: CallbackQuery, year: int, month: int, day: string, today: Date)
    requires ValidDate(Date(year, month, 1)) && Separator !in day
    ensures HandleQuery(Press(call, "IGNORE", year, month, day), today)
         == Response([Answer(call.id, None)], Returned(FalseTag, None))
  {
    PressDispatches(call, "IGNORE", year, month, day, today);
    ActionNames();
  }

  /** DAY deletes the message and returns `("DAY", date)` for the date the token names. */
  lemma DayPress(call: CallbackQuery, d: Date, today: Date)
    requires ValidDate(d)
    ensures HandleQuery(Press(call, "DAY", d.year, d.month, IntToString(d.day)), today)
         == Response([Delete(call.chatId, call.messageId)], Returned(NameTag("DAY"), Some(d)))
  {
    IntToStringAvoids(d.day, Separator);
    PressDispatches(call, "DAY", d.year, d.month, IntToString(d.day), today);
    ActionNames();
    ParseOfIntToString(d.day);
  }

  /** DAY deletes the message before it reads the day, so a day that is no date of the
      month still costs the message: the deletion happens, then the handler raises
      ValueError, or OverflowError for a day beyond a C `int`. */
  lemma DayPressOutsideMonth(call: CallbackQuery, year: int, month: int, day: int, today: Date)
    requires ValidDate(Date(year, month, 1)) && !ValidDate(Date(year, month, day))
    ensures HandleQuery(Press(call, "DAY", year, month, IntToString(day)), today)
         == Response([Delete(call.chatId, call.messageId)],
                     Raised(if FitsCInt(day) then DateOutOfRange else DateOverflow))
  {
    var pressed, f := Press(call, "DAY", year, month, IntToString(day)), Fields("DAY", year, month, IntToString(day));
    IntToStringAvoids(day, Separator);
    PressDispatches(call, "DAY", year, month, IntToString(day), today);
    ActionNames();
    assert Dispatch(pressed, f, today) == DayChosen(pressed, f);
    ParseOfIntToString(day);
    DayChosenRaises(pressed, f, day);
  }

  /** The DAY branch on a day field that reads as `day`, a day its month does not have. */
  lemma DayChosenRaises(call: CallbackQuery, f: Fields, day: int)
    requires ParseInt(f.day) == Some(day) && !ValidDate(Date(f.year, f.month, day))
    requires ValidDate(Date(f.year, f.month, 1))
    ensures DayChosen(call, f)
         == Response([Delete(call.chatId, call.messageId)],
                     Raised(if FitsCInt(day) then DateOutOfRange else DateOverflow))
  {
  }

  /** The month step of PREVIOUS-MONTH, first-of-month minus one day, lands in the
      calendar-month before (year, month), or overflows from January of year 1. */
  lemma StepBack(call: CallbackQuery, f: Fields, today: Date)
    requires ValidDate(Date(f.year, f.month, 1))
    ensures
      var prev := PreviousMonth(f.year, f.month);
      StepMonth(call, f, -1, today) ==
        if f.year == MinYear && f.month == 1 then Response([], Raised(DateOverflow))
        else Response([EditWith(call, DayGrid(prev.0, prev.1, today))], Returned(NoneTag, None))
  {
    PreviousMonthByOffset(f.year, f.month);
  }

  /** The month step of NEXT-MONTH, first-of-month plus 31 days, lands in the
      calendar-month after (year, month), or overflows from December 9999. */
  lemma StepForward(call: CallbackQuery, f: Fields, today: Date)
    requires ValidDate(Date(f.year, f.month, 1))
    ensures
      var next := NextMonth(f.year, f.month);
      StepMonth(call, f, 31, today) ==
        if f.year == MaxYear && f.month == 12 then Response([], Raised(DateOverflow))
        else Response([EditWith(call, DayGrid(next.0, next.1, today))], Returned(NoneTag, None))
  {
    NextMonthByOffset(f.year, f.month);
  }

  /** PREVIOUS-MONTH re-renders the calendar-month before (year, month) in place and
      returns `(None, None)`, whatever its day field; from January of year 1 the day
      step overflows. */
  lemma PreviousMonthPress(call: CallbackQuery, year: int, month: int, day: string, today: Date)
    requires ValidDate(Date(year, month, 1)) && Separator !in day
    ensures
      var prev := PreviousMonth(year, month);
      HandleQuery(Press(call, "PREVIOUS-MONTH", year, month, day), today) ==
        if year == MinYear && month == 1 then Response([], Raised(DateOverflow))
        else Response([Edit(call.chatId, call.messageId, call.text, DayGrid(prev.0, prev.1, today))],
                      Returned(NoneTag, None))
  {
    var pressed := Press(call, "PREVIOUS-MONTH", year, month, day);
    var f := Fields("PREVIOUS-MONTH", year, month, day);
    PressDispatches(call, f.action, year, month, f.day, today);
    assert Dispatch(pressed, f, today) == StepMonth(pressed, f, -1, today) by {
      ActionNames();
    }
    StepBack(pressed, f, today);
  }

  /** NEXT-MONTH re-renders the calendar-month after (year, month) in place and returns
      `(None, None)`, for every month length and whatever its day field; from December
      9999 the day step overflows. */
  lemma NextMonthPress(call: CallbackQuery, year: int, month: int, day: string, today: Date)
    requires ValidDate(Date(year, month, 1)) && Separator !in day
    ensures
      var next := NextMonth(year, month);
      HandleQuery(Press(call, "NEXT-MONTH", year, month, day), today) ==
        if year == MaxYear && month == 12 then Response([], Raised(DateOverflow))
        else Response([Edit(call.chatId, call.messageId, call.text, DayGrid(next.0, next.1, today))],
                      Returned(NoneTag, None))
  {
    var pressed := Press(call, "NEXT-MONTH", year, month, day);
    var f := Fields("NEXT-MONTH", year, month, day);
    PressDispatches(call, f.action, year, month, f.day, today);
    assert Dispatch(pressed, f, today) == StepMonth(pressed, f, 31, today) by {
      ActionNames();
    }
    StepForward(pressed, f, today);
  }

  /** MONTHS replaces the grid with the month picker of the same year and returns
      `("MONTH", None)`, whatever its day field. */
  lemma MonthsPress(call: CallbackQuery, year: int, month: int, day: string, today: Date)
    requires ValidDate(Date(year, month, 1)) && Separator !in day
    ensures HandleQuery(Press(call, "MONTHS", year, month, day), today)
         == Response([Edit(call.chatId, call.messageId, call.text, MonthPicker(year))],
                     Returned(NameTag("MONTH"), None))
  {
    var f := Fields("MONTHS", year, month, day);
    PressDispatches(call, f.action, year, month, f.day, today);
    ActionNames();
  }

  /** MONTH shows the grid of the month the token carries and returns `(None, None)`,
      whatever its day field. */
  lemma MonthPress(call: CallbackQuery, year: int, month: int, day: string, today: Date)
    requires ValidDate(Date(year, month, 1)) && Separator !in day
    ensures HandleQuery(Press(call, "MONTH", year, month, day), today)
         == Response([Edit(call.chatId, call.messageId, call.text, DayGrid(year, month, today))],
                     Returned(NoneTag, None))
  {
    var f := Fields("MONTH", year, month, day);
    PressDispatches(call, f.action, year, month, f.day, today);
    ActionNames();
  }

  /** CANCEL deletes the message and returns `("CANCEL", None)`, whatever its day field. */
  lemma CancelPress(call: CallbackQuery, year: int, month: int, day: string, today: Date)
    requires ValidDate(Date(year, month, 1)) && Separator !in day
    ensures HandleQuery(Press(call, "CANCEL", year, month, day), today)
         == Response([Delete(call.chatId, call.messageId)], Returned(NameTag("CANCEL"), None))
  {
    var f := Fields("CANCEL", year, month, day);
    PressDispatches(call, f.action, year, month, f.day, today);
    ActionNames();
  }

  /** Any other action answers "ERROR!", deletes the message and returns `(None, None)`. */
  lemma UnknownActionPress(call: CallbackQuery, action: string, year: int, month: int, day: string, today: Date)
    requires Separator !in action && Separator !in day && ValidDate(Date(year, month, 1))
    requires action !in {"IGNORE", "DAY", "PREVIOUS-MONTH", "NEXT-MONTH", "MONTHS", "MONTH", "CANCEL"}
    ensures HandleQuery(Press(call, action, year, month, day), today)
         == Response([Answer(call.id, Some("ERROR!")), Delete(call.chatId, call.messageId)], Returned(NoneTag, None))
  {
    PressDispatches(call, action, year, month, day, today);
  }

  /** Pressing a month-picker button shows the month its token carries, not the one its
      label names: "March" (row 1, first column) opens February. */
  lemma MonthPickerPress(call: CallbackQuery, year: int, i: int, j: int, today: Date)
    requires MinYear <= year <= MaxYear && 0 <= i < 6 && 0 <= j < 2
    ensures
      var month := if j == 0 then i + 1 else 2 * (i + 1);
      HandleQuery(call.(data := CreateMonthsCalendar(year)[i][j].data), today)
        == Response([Edit(call.chatId, call.messageId, call.text, DayGrid(year, month, today))],
                    Returned(NoneTag, None))
  {
    var month := if j == 0 then i + 1 else 2 * (i + 1);
    MonthButtonData(year, i, j);
    assert ValidDate(Date(year, month, 1));
    MonthPress(call, year, month, "", today);
  }
}

=== FILE: keyboard.dfy ===
/** The two inline keyboards the module renders: the day grid of one month
    (`create_calendar`) and the month picker of one year (`create_months_calendar`).
    A keyboard is a list of rows, one per `keyboard.add(...)` call in the source. */
module Keyboard {
  import opened Wrappers
  import opened Errors
  import opened Text
  import opened Decimal
  import opened Gregorian
  import opened MonthCalendar
  import opened CallbackData

  /** `InlineKeyboardButton(text, callback_data=data)`. */
  datatype Button = Button(text: string, data: string)

  type Markup = seq<seq<Button>>

  const MonthNames: seq<string> :=
    ["January", "February", "March", "April", "May", "June", "July", "August", "September",
     "October", "November", "December"]

  /** The weekday labels, Sunday first (the grid's columns are Monday first). */
  const DayNames: seq<string> := ["Su", "Mo", "Tu", "We", "Th", "Fr", "Sa"]

  const CancelLabel: string := "Отмена"

  /** `f"{day}.{month}.{year}"`, the string the renderer compares with today's. */
  function DateKey(day: int, month: int, year: int): string
  {
    Join([IntToString(day), IntToString(month), IntToString(year)], '.')
  }

  /** Comparing the two strings is comparing the dates: the key identifies its triple. */
  lemma DateKeyIdentifies(day: int, month: int, year: int, day': int, month': int, year': int)
    ensures DateKey(day, month, year) == DateKey(day', month', year')
        <==> day == day' && month == month' && year == year'
  {
    var a := [IntToString(day), IntToString(month), IntToString(year)];
    var b := [IntToString(day'), IntToString(month'), IntToString(year')];
    IntToStringAvoids(day, '.');
    IntToStringAvoids(month, '.');
    IntToStringAvoids(year, '.');
    IntToStringAvoids(day', '.');
    IntToStringAvoids(month', '.');
    IntToStringAvoids(year', '.');
    JoinInjective(a, b, '.');
    if a == b {
      assert a[0] == b[0] && a[1] == b[1] && a[2] == b[2];
      IntToStringInjective(day, day');
      IntToStringInjective(month, month');
      IntToStringInjective(year, year');
    }
  }

  /** The cell for one entry of `monthcalendar`: a blank for 0, otherwise a DAY button
      labelled with the day, in parentheses when it is today. */
  function DayButton(year: int, month: int, day: int, today: Date): (b: Button)
    ensures day == 0 ==> b == Button(" ", CreateCallbackData("IGNORE", year, month, ""))
    ensures day != 0 ==>
      b == Button(if today == Date(year, month, day) then "(" + IntToString(day) + ")" else IntToString(day),
                  CreateCallbackData("DAY", year, month, IntToString(day)))
  {
    DateKeyIdentifies(today.day, today.month, today.year, day, month, year);
    if day == 0 then Button(" ", CreateCallbackData("IGNORE", year, month, ""))
    else
      var data := CreateCallbackData("DAY", year, month, IntToString(day));
      if DateKey(today.day, today.month, today.year) == DateKey(day, month, year) then
        Button("(" + IntToString(day) + ")", data)
      else
        Button(IntToString(day), data)
  }

  function WeekRow(year: int, month: int, week: seq<int>, today: Date): (row: seq<Button>)
    ensures |row| == |week|
  {
    seq(|week|, i requires 0 <= i < |week| => DayButton(year, month, week[i], today))
  }

  function HeaderRow(year: int, month: int): seq<Button>
    requires 1 <= month <= 12
  {
    [Button(MonthNames[month - 1] + " " + IntToString(year), CreateCallbackData("MONTHS", year, month, ""))]
  }

  function LabelRow(year: int, month: int): seq<Button>
  {
    seq(|DayNames|, i requires 0 <= i < |DayNames| => Button(DayNames[i], CreateCallbackData("IGNORE", year, month, "")))
  }

  function ControlRow(year: int, month: int): seq<Button>
  {
    [Button("<", CreateCallbackData("PREVIOUS-MONTH", year, month, "")),
     Button(CancelLabel, CreateCallbackData("CANCEL", year, month, "")),
     Button(">", CreateCallbackData("NEXT-MONTH", year, month, ""))]
  }

  /** One row per week of `monthcalendar(year, month)`. */
  function WeekRows(year: int, month: int, today: Date): (rows: Markup)
    requires 1 <= month <= 12
    ensures |rows| == |MonthWeeks(year, month)|
    ensures forall w :: 0 <= w < |rows| ==> |rows[w]| == 7
  {
    var weeks := MonthWeeks(year, month);
    seq(|weeks|, w requires 0 <= w < |weeks| => WeekRow(year, month, weeks[w], today))
  }

  /** `create_calendar(year, month)` with `datetime.now()` passed in as `today`. */
  function CalendarMarkup(year: int, month: int, today: Date): (g: Markup)
    requires 1 <= month <= 12
    ensures |g| == |MonthWeeks(year, month)| + 3
    ensures forall r :: 2 <= r < |g| - 1 ==> |g[r]| == 7
  {
    [HeaderRow(year, month), LabelRow(year, month)] + WeekRows(year, month, today) + [ControlRow(year, month)]
  }

  /** `create_calendar` for any month number: outside 1..12 it raises (an IndexError from
      the month-name table or IllegalMonthError from `monthcalendar`). */
  function CreateCalendar(year: int, month: int, today: Date): (r: Result<Markup, Error>)
    ensures r.Err? <==> !(1 <= month <= 12)
    ensures r.Err? ==> r.error == BadMonth
  {
    if 1 <= month <= 12 then Ok(CalendarMarkup(year, month, today)) else Err(BadMonth)
  }

  /** A keyboard the handler sends, named by the renderer call that builds it. */
  datatype View = DayGrid(year: int, month: int, today: Date) | MonthPicker(year: int)

  /** A view the handler may send: a month picker, or the grid of a month whose first
      day `datetime` can represent. */
  predicate Sendable(v: View)
  {
    v.DayGrid? ==> ValidDate(Date(v.year, v.month, 1))
  }

  /** The rows of a view: `create_calendar(year, month)` rendered on `today`, or
      `create_months_calendar(year)`. */
  function Render(v: View): Markup
    requires v.DayGrid? ==> 1 <= v.month <= 12
  {
    match v
    case DayGrid(year, month, today) => CalendarMarkup(year, month, today)
    case MonthPicker(year) => CreateMonthsCalendar(year)
  }

  /** `create_months_calendar(year)`: six rows pairing the months two by two, where the
      first button of row `i` carries month `i + 1` and the second month `(i + 1) * 2`. */
  function CreateMonthsCalendar(year: int): (g: Markup)
    ensures |g| == 6
    ensures forall i :: 0 <= i < 6 ==> |g[i]| == 2
    ensures forall i, j :: 0 <= i < 6 && 0 <= j < 2 ==> g[i][j].text == MonthNames[2 * i + j]
  {
    seq(6, i requires 0 <= i < 6 => MonthPairRow(year, i))
  }

  /** Row `i` of the month picker: the `i`-th pair of `zip(months[0::2], months[1::2])`. */
  function MonthPairRow(year: int, i: int): seq<Button>
    requires 0 <= i < 6
  {
    [Button(MonthNames[2 * i], CreateCallbackData("MONTH", year, i + 1, "")),
     Button(MonthNames[2 * i + 1], CreateCallbackData("MONTH", year, (i + 1) * 2, ""))]
  }

  // ---------------------------------------------------------------- the day grid

  /** Row layout of the day grid: a one-button header carrying MONTHS, seven weekday
      labels all carrying IGNORE, four to six week rows of seven cells, and the
      previous / cancel / next controls. */
  lemma CalendarShape(year: int, month: int, today: Date)
    requires 1 <= month <= 12
    ensures var g := CalendarMarkup(year, month, today);
      && 6 <= |g| <= 9
      && g[0] == [Button(MonthNames[month - 1] + " " + IntToString(year), CreateCallbackData("MONTHS", year, month, ""))]
      && |g[1]| == 7
      && (forall i :: 0 <= i < 7 ==>
            g[1][i] == Button(DayNames[i], CreateCallbackData("IGNORE", year, month, "")))
      && (forall r :: 2 <= r < |g| - 1 ==> |g[r]| == 7)
      && g[|g| - 1] == [Button("<", CreateCallbackData("PREVIOUS-MONTH", year, month, "")),
                        Button(CancelLabel, CreateCallbackData("CANCEL", year, month, "")),
                        Button(">", CreateCallbackData("NEXT-MONTH", year, month, ""))]
  {
    var g := CalendarMarkup(year, month, today);
    assert g[|g| - 1] == ControlRow(year, month);
  }

  /** Every week cell outside the month is a blank IGNORE button; the cell at position `p`
      (counted row by row) inside the month carries day `p - lead + 1`. */
  lemma CalendarCell(year: int, month: int, today: Date, w: int, c: int)
    requires 1 <= month <= 12
    requires 0 <= w < |MonthWeeks(year, month)| && 0 <= c < 7
    ensures
      var cell := CalendarMarkup(year, month, today)[2 + w][c];
      var p := 7 * w + c;
      var lead := FirstWeekday(year, month);
      if lead <= p < lead + DaysInMonth(year, month) then
        cell.data == CreateCallbackData("DAY", year, month, IntToString(p - lead + 1))
      else
        cell == Button(" ", CreateCallbackData("IGNORE", year, month, ""))
  {
    GridCell(year, month, today, w, c);
  }

  /** The cell in week `w`, column `c` is the button for that entry of `monthcalendar`. */
  lemma GridCell(year: int, month: int, today: Date, w: int, c: int)
    requires 1 <= month <= 12
    requires 0 <= w < |MonthWeeks(year, month)| && 0 <= c < 7
    ensures CalendarMarkup(year, month, today)[2 + w][c] == DayButton(year, month, MonthWeeks(year, month)[w][c], today)
  {
    var row := CalendarRow(year, month, today, 2 + w);
    assert row == WeekRow(year, month, MonthWeeks(year, month)[w], today);
  }

  /** Day `d` sits in the cell of `DayPosition`, carries `DAY;year;month;d`, and is
      labelled "(d)" exactly when it is today's date, "d" otherwise. */
  lemma DayCell(year: int, month: int, today: Date, d: int)
    requires 1 <= month <= 12 && 1 <= d <= DaysInMonth(year, month)
    ensures
      var p := FirstWeekday(year, month) + d - 1;
      var g := CalendarMarkup(year, month, today);
      && 2 + p / 7 < |g| - 1
      && g[2 + p / 7][p % 7] ==
           Button(if today == Date(year, month, d) then "(" + IntToString(d) + ")" else IntToString(d),
                  CreateCallbackData("DAY", year, month, IntToString(d)))
  {
    DayInWeeks(year, month, d);
    DayAt(year, month, today, d,
          (FirstWeekday(year, month) + d - 1) / 7, (FirstWeekday(year, month) + d - 1) % 7);
  }

  /** The cell holding day `d` in `monthcalendar` is that day's button. */
  lemma DayAt(year: int, month: int, today: Date, d: int, w: int, c: int)
    requires 1 <= month <= 12 && d != 0
    requires 0 <= w < |MonthWeeks(year, month)| && 0 <= c < 7 && MonthWeeks(year, month)[w][c] == d
    ensures 2 + w < |CalendarMarkup(year, month, today)| - 1
    ensures CalendarMarkup(year, month, today)[2 + w][c] ==
      Button(if today == Date(year, month, d) then "(" + IntToString(d) + ")" else IntToString(d),
             CreateCallbackData("DAY", year, month, IntToString(d)))
  {
    GridCell(year, month, today, w, c);
  }

  /** The weekday labels are Sunday-first while the columns are Monday-first: the label
      over day `d`'s column is the name of the day before it, so every Monday sits under "Su". */
  lemma LabelOverDay(year: int, month: int, today: Date, d: int)
    requires MinYear <= year <= MaxYear && 1 <= month <= 12 && 1 <= d <= DaysInMonth(year, month)
    ensures
      var wd := Weekday(Date(year, month, d));
      var heading := CalendarMarkup(year, month, today)[1][(FirstWeekday(year, month) + d - 1) % 7].text;
      && heading == DayNames[wd]
      && (wd == 0 ==> heading == "Su")
  {
    DayPosition(year, month, d);
    CalendarShape(year, month, today);
  }

  /** Every button of a day grid for a month `datetime` can represent decodes, to that
      year and month: the handler's four-way unpack and date check never fail on them. */
  lemma CalendarTokensDecode(year: int, month: int, today: Date, r: int, i: int)
    requires ValidDate(Date(year, month, 1))
    requires 0 <= r < |CalendarMarkup(year, month, today)|
    requires 0 <= i < |CalendarMarkup(year, month, today)[r]|
    ensures DecodesTo(CalendarMarkup(year, month, today)[r][i].data, year, month)
  {
    var row := CalendarRow(year, month, today, r);
    RowTokensDecode(year, month, today, r, i);
  }

  lemma RowTokensDecode(year: int, month: int, today: Date, r: int, i: int)
    requires ValidDate(Date(year, month, 1))
    requires 0 <= r < |MonthWeeks(year, month)| + 3
    requires 0 <= i < |RowAt(year, month, today, r)|
    ensures DecodesTo(RowAt(year, month, today, r)[i].data, year, month)
  {
    if r == 0 {
      HeaderTokenDecodes(year, month);
    } else if r == 1 {
      LabelTokensDecode(year, month, i);
    } else if r == |MonthWeeks(year, month)| + 2 {
      ControlTokensDecode(year, month, i);
    } else {
      WeekTokenDecodes(year, month, today, r - 2, i);
    }
  }

  /** The row builder behind row `r` of the day grid. */
  function RowAt(year: int, month: int, today: Date, r: int): seq<Button>
    requires 1 <= month <= 12 && 0 <= r < |MonthWeeks(year, month)| + 3
  {
    if r == 0 then HeaderRow(year, month)
    else if r == 1 then LabelRow(year, month)
    else if r == |MonthWeeks(year, month)| + 2 then ControlRow(year, month)
    else WeekRows(year, month, today)[r - 2]
  }

  /** Which row builder produced row `r` of the day grid. */
  lemma CalendarRow(year: int, month: int, today: Date, r: int) returns (row: seq<Button>)
    requires 1 <= month <= 12
    requires 0 <= r < |CalendarMarkup(year, month, today)|
    ensures row == CalendarMarkup(year, month, today)[r]
    ensures row == RowAt(year, month, today, r)
  {
    row := CalendarMarkup(year, month, today)[r];
  }

  lemma HeaderTokenDecodes(year: int, month: int)
    requires ValidDate(Date(year, month, 1))
    ensures DecodesTo(HeaderRow(year, month)[0].data, year, month)
  {
    PlainTokenDecodes("MONTHS", year, month);
  }

  lemma LabelTokensDecode(year: int, month: int, i: int)
    requires ValidDate(Date(year, month, 1)) && 0 <= i < |DayNames|
    ensures DecodesTo(LabelRow(year, month)[i].data, year, month)
  {
    PlainTokenDecodes("IGNORE", year, month);
  }

  lemma ControlTokensDecode(year: int, month: int, i: int)
    requires ValidDate(Date(year, month, 1)) && 0 <= i < 3
    ensures DecodesTo(ControlRow(year, month)[i].data, year, month)
  {
    if i == 0 {
      PlainTokenDecodes("PREVIOUS-MONTH", year, month);
    } else if i == 1 {
      PlainTokenDecodes("CANCEL", year, month);
    } else {
      PlainTokenDecodes("NEXT-MONTH", year, month);
    }
  }

  lemma WeekTokenDecodes(year: int, month: int, today: Date, w: int, c: int)
    requires ValidDate(Date(year, month, 1))
    requires 0 <= w < |MonthWeeks(year, month)| && 0 <= c < 7
    ensures DecodesTo(WeekRows(year, month, today)[w][c].data, year, month)
  {
    var day := MonthWeeks(year, month)[w][c];
    assert WeekRows(year, month, today)[w][c] == DayButton(year, month, day, today);
    if day == 0 {
      PlainTokenDecodes("IGNORE", year, month);
    } else {
      IntToStringAvoids(day, Separator);
      DecodeOfCallbackData("DAY", year, month, IntToString(day));
    }
  }

  predicate DecodesTo(data: string, year: int, month: int)
  {
    Decode(data).Ok? && Decode(data).value.year == year && Decode(data).value.month == month
  }

  lemma PlainTokenDecodes(action: string, year: int, month: int)
    requires Separator !in action && ValidDate(Date(year, month, 1))
    ensures DecodesTo(CreateCallbackData(action, year, month, ""), year, month)
  {
    DecodeOfCallbackData(action, year, month, "");
  }

  // ---------------------------------------------------------------- the month picker

  /** The token of the month-picker button in row `i`, column `j`. */
  lemma MonthButtonData(year: int, i: int, j: int)
    requires 0 <= i < 6 && 0 <= j < 2
    ensures CreateMonthsCalendar(year)[i][j].data
         == CreateCallbackData("MONTH", year, if j == 0 then i + 1 else 2 * (i + 1), "")
  {
    assert CreateMonthsCalendar(year)[i] == MonthPairRow(year, i);
  }

  /** Row `i` of the month picker carries MONTH tokens for `year` and months `i + 1`
      (first column) and `2 * (i + 1)` (second column). */
  lemma MonthsCalendarTokens(year: int, i: int)
    requires MinYear <= year <= MaxYear && 0 <= i < 6
    ensures var row := CreateMonthsCalendar(year)[i];
      && Decode(row[0].data) == Ok(Fields("MONTH", year, i + 1, ""))
      && Decode(row[1].data) == Ok(Fields("MONTH", year, 2 * (i + 1), ""))
  {
    var row := CreateMonthsCalendar(year)[i];
    assert row == MonthPairRow(year, i);
    assert row[0].data == CreateCallbackData("MONTH", year, i + 1, "");
    assert row[1].data == CreateCallbackData("MONTH", year, 2 * (i + 1), "");
    DecodeOfCallbackData("MONTH", year, i + 1, "");
    DecodeOfCallbackData("MONTH", year, 2 * (i + 1), "");
  }

  /** A month-picker button leads to the month its label names (month `2 * i + j + 1`
      for the button in row `i`, column `j`) exactly when it is in the second column or in
      the first row: "March", "May", ... "November" lead to months 2, 3, ... 6. */
  lemma MonthsCalendarLabelMatches(year: int, i: int, j: int)
    requires MinYear <= year <= MaxYear && 0 <= i < 6 && 0 <= j < 2
    ensures
      var b := CreateMonthsCalendar(year)[i][j];
      && b.text == MonthNames[2 * i + j]
      && Decode(b.data).Ok?
      && (Decode(b.data).value.month == 2 * i + j + 1 <==> j == 1 || i == 0)
  {
    MonthsCalendarTokens(year, i);
  }
}

=== FILE: month_calendar.dfy ===
/** Python's `calendar.monthcalendar(year, month)` for the default `firstweekday` of 0,
    so weeks run Monday to Sunday and days outside the month are shown as 0. */
module MonthCalendar {
  import opened Gregorian

  /** `calendar.weekday` asks `datetime` about a year outside 1..9999 by first moving it
      to the year 2000 + y % 400, which has the same place in the 400-year Gregorian cycle. */
  function CycleYear(y: int): (c: int)
    ensures MinYear <= c <= MaxYear
    ensures IsLeapYear(c) == IsLeapYear(y)
    ensures (c - y) % 400 == 0
  {
    if MinYear <= y <= MaxYear then y
    else
      var r := y % 400;
      var q := y / 400;
      assert y == 400 * q + r && 2000 + r == 400 * (5 - q) + y;
      SameLeapness(y, 5 - q);
      2000 + r
  }

  /** Years 400 apart are both leap years or both common years. */
  lemma {:induction false} SameLeapness(y: int, k: int)
    ensures IsLeapYear(y + 400 * k) == IsLeapYear(y)
    decreases if k < 0 then -k else k
  {
    if k > 0 {
      SameLeapness(y, k - 1);
      LeapStep(y + 400 * (k - 1));
    } else if k < 0 {
      SameLeapness(y, k + 1);
      LeapStep(y + 400 * k);
    }
  }

  /** One cycle: a year and the year 400 later are alike. */
  lemma LeapStep(x: int)
    ensures IsLeapYear(x + 400) == IsLeapYear(x)
  {
    assert (x + 400) % 4 == x % 4 && (x + 400) % 100 == x % 100 && (x + 400) % 400 == x % 400;
  }

  /** `calendar.monthrange(y, m)[0]`: the weekday of the first of the month, Monday 0. */
  function FirstWeekday(y: int, m: int): (w: int)
    requires 1 <= m <= 12
    ensures 0 <= w < 7
  {
    Weekday(Date(CycleYear(y), m, 1))
  }

  function Zeros(n: nat): (s: seq<int>)
    ensures |s| == n
  {
    seq(n, _ => 0)
  }

  /** `range(lo, lo + n)`. */
  function Range(lo: int, n: nat): (s: seq<int>)
    ensures |s| == n
  {
    seq(n, i => lo + i)
  }

  /** Blank cells after the last day, so that the month fills whole weeks. */
  function TrailingBlanks(y: int, m: int): (t: int)
    requires 1 <= m <= 12
    ensures 0 <= t < 7
  {
    (0 - FirstWeekday(y, m) - DaysInMonth(y, m)) % 7
  }

  /** `Calendar.itermonthdays(y, m)` as a list: blanks up to the first's weekday,
      the days 1..n, then blanks to the end of the last week. */
  function MonthDays(y: int, m: int): (days: seq<int>)
    requires 1 <= m <= 12
    ensures |days| == FirstWeekday(y, m) + DaysInMonth(y, m) + TrailingBlanks(y, m)
    ensures |days| % 7 == 0
    ensures forall p :: 0 <= p < |days| ==> days[p] == CellDay(y, m, p)
  {
    var lead, n := FirstWeekday(y, m), DaysInMonth(y, m);
    PaddedMonth(lead, n);
    Padded(lead, n, TrailingBlanks(y, m))
  }

  /** Blanks, the days 1..n, blanks. */
  function Padded(lead: nat, n: nat, trail: nat): seq<int>
  {
    Zeros(lead) + Range(1, n) + Zeros(trail)
  }

  /** Padding a month up to whole weeks: the list is a multiple of seven long and
      position `p` holds day `p - lead + 1` inside the month, blank outside. */
  lemma PaddedMonth(lead: nat, n: nat)
    ensures var days := Padded(lead, n, (0 - lead - n) % 7);
      && |days| % 7 == 0
      && forall p :: 0 <= p < |days| ==> days[p] == if lead <= p < lead + n then p - lead + 1 else 0
  {
    var trail := (0 - lead - n) % 7;
    var q := (0 - lead - n) / 7;
    assert 0 - lead - n == 7 * q + trail;
    assert lead + n + trail == 7 * (0 - q);
  }

  /** `monthcalendar`: the day list cut into consecutive slices of seven. There are four
      to six weeks of exactly seven cells; the cell in week `w`, column `c` is the entry
      at position `7 * w + c` of the day list. */
  function MonthWeeks(y: int, m: int): (weeks: seq<seq<int>>)
    requires 1 <= m <= 12
    ensures 4 <= |weeks| <= 6
    ensures forall w :: 0 <= w < |weeks| ==> |weeks[w]| == 7
    ensures forall w, c :: 0 <= w < |weeks| && 0 <= c < 7 ==> weeks[w][c] == CellDay(y, m, 7 * w + c)
  {
    var days := MonthDays(y, m);
    assert 28 <= |days| <= 42;
    var weeks := seq((|days| + 6) / 7, w requires 0 <= w < (|days| + 6) / 7 =>
      days[7 * w .. if 7 * w + 7 <= |days| then 7 * w + 7 else |days|]);
    assert |weeks| == |days| / 7;
    assert forall w :: 0 <= w < |weeks| ==> weeks[w] == days[7 * w .. 7 * w + 7];
    weeks
  }

  /** What the cell at position `p` (counted row by row from the first week) shows. */
  function CellDay(y: int, m: int, p: int): int
    requires 1 <= m <= 12
  {
    var lead := FirstWeekday(y, m);
    if lead <= p < lead + DaysInMonth(y, m) then p - lead + 1 else 0
  }

  /** Blank cells are only padding: before the first day in the first week, or after the
      last day in the last week. */
  lemma BlanksArePadding(y: int, m: int, w: int, c: int)
    requires 1 <= m <= 12
    requires 0 <= w < |MonthWeeks(y, m)| && 0 <= c < 7
    requires MonthWeeks(y, m)[w][c] == 0
    ensures
      || (w == 0 && c < FirstWeekday(y, m))
      || (w == |MonthWeeks(y, m)| - 1 && 7 * w + c >= FirstWeekday(y, m) + DaysInMonth(y, m))
  {
    assert |MonthWeeks(y, m)| == |MonthDays(y, m)| / 7;
  }

  /** Day `d` of the month sits in week `(lead + d - 1) / 7`, column `(lead + d - 1) % 7`,
      so read row by row the days appear as 1, 2, ..., n, each exactly once. Columns are
      Monday-first: for a year `datetime` can represent, the column of day `d` is its
      weekday, Monday 0 to Sunday 6. */
  lemma DayPosition(y: int, m: int, d: int)
    requires 1 <= m <= 12 && 1 <= d <= DaysInMonth(y, m)
    ensures
      var p := FirstWeekday(y, m) + d - 1;
      && p / 7 < |MonthWeeks(y, m)|
      && MonthWeeks(y, m)[p / 7][p % 7] == d
      && (MinYear <= y <= MaxYear ==> Weekday(Date(y, m, d)) == p % 7)
  {
    DayInWeeks(y, m, d);
    var p := FirstWeekday(y, m) + d - 1;
    if MinYear <= y <= MaxYear {
      var first := ToOrdinal(Date(y, m, 1));
      assert ToOrdinal(Date(y, m, d)) == first + d - 1;
      WeekdayShift(first, FirstWeekday(y, m), p / 7, p % 7);
    }
  }

  /** The cell part of `DayPosition`: where day `d` sits in `monthcalendar`. */
  lemma DayInWeeks(y: int, m: int, d: int)
    requires 1 <= m <= 12 && 1 <= d <= DaysInMonth(y, m)
    ensures
      var p := FirstWeekday(y, m) + d - 1;
      && p / 7 < |MonthWeeks(y, m)|
      && MonthWeeks(y, m)[p / 7][p % 7] == d
  {
    assert |MonthWeeks(y, m)| == |MonthDays(y, m)| / 7;
  }

  lemma WeekdayShift(first: int, lead: int, w: int, c: int)
    requires lead == (first + 6) % 7 && 0 <= c < 7
    ensures (first + (7 * w + c - lead + 1) - 1 + 6) % 7 == c
  {
    var q := (first + 6) / 7;
    assert first + 6 == 7 * q + lead;
    assert first + (7 * w + c - lead + 1) - 1 + 6 == 7 * (q + w) + c;
  }
}

=== FILE: text.dfy ===
/** Python's `str.join` and `str.split` for a one-character separator. */
module Text {

  /** Number of occurrences of `c` in `s`. */
  function Occurrences(s: string, c: char): nat
  {
    if |s| == 0 then 0 else (if s[0] == c then 1 else 0) + Occurrences(s[1..], c)
  }

  /** `sep.join(parts)`. */
  function Join(parts: seq<string>, sep: char): string
  {
    if |parts| == 0 then ""
    else if |parts| == 1 then parts[0]
    else parts[0] + [sep] + Join(parts[1..], sep)
  }

  /** `s.split(sep)`: every occurrence of `sep` ends a piece, so `""` splits into `[""]`
      and `"a;"` into `["a", ""]`. */
  function Split(s: string, sep: char): (parts: seq<string>)
    ensures |parts| == Occurrences(s, sep) + 1
    ensures forall i :: 0 <= i < |parts| ==> sep !in parts[i]
    ensures Join(parts, sep) == s
    decreases |s|
  {
    if |s| == 0 then [""]
    else
      var rest := Split(s[1..], sep);
      if s[0] == sep then
        assert s == [sep] + s[1..];
        [""] + rest
      else
        var parts := [[s[0]] + rest[0]] + rest[1..];
        assert parts[1..] == rest[1..];
        assert |rest| > 1 ==> Join(rest, sep) == rest[0] + [sep] + Join(rest[1..], sep);
        assert s == [s[0]] + s[1..];
        parts
  }

  /** Splitting a string that starts with a separator-free piece `p` puts `p` in front of
      the first piece of the rest. */
  lemma {:induction false} SplitAfterPiece(p: string, t: string, sep: char)
    requires sep !in p
    ensures Split(p + t, sep) == [p + Split(t, sep)[0]] + Split(t, sep)[1..]
    decreases |p|
  {
    var st := Split(t, sep);
    if |p| == 0 {
      assert p + t == t;
      assert p + st[0] == st[0];
      assert [st[0]] + st[1..] == st;
    } else {
      assert (p + t)[1..] == p[1..] + t;
      SplitAfterPiece(p[1..], t, sep);
      assert [p[0]] + (p[1..] + Split(t, sep)[0]) == p + Split(t, sep)[0];
    }
  }

  /** Round trip: splitting a join of separator-free pieces gives the pieces back. */
  lemma {:induction false} SplitOfJoin(parts: seq<string>, sep: char)
    requires |parts| >= 1
    requires forall i :: 0 <= i < |parts| ==> sep !in parts[i]
    ensures Split(Join(parts, sep), sep) == parts
    decreases |parts|
  {
    if |parts| == 1 {
      SplitAfterPiece(parts[0], "", sep);
      assert parts[0] + "" == parts[0];
    } else {
      var rest := Join(parts[1..], sep);
      var tail := [sep] + rest;
      assert Join(parts, sep) == parts[0] + tail;
      SplitOfJoin(parts[1..], sep);
      assert tail[0] == sep && tail[1..] == rest;
      assert Split(tail, sep) == [""] + parts[1..];
      SplitAfterPiece(parts[0], tail, sep);
      var st := Split(tail, sep);
      assert st[0] == "" && st[1..] == parts[1..];
      assert parts[0] + st[0] == parts[0];
      assert parts == [parts[0]] + parts[1..];
    }
  }

  /** Joining separator-free pieces is injective: equal joins come from equal pieces. */
  lemma JoinInjective(a: seq<string>, b: seq<string>, sep: char)
    requires |a| >= 1 && |b| >= 1
    requires forall i :: 0 <= i < |a| ==> sep !in a[i]
    requires forall i :: 0 <= i < |b| ==> sep !in b[i]
    ensures Join(a, sep) == Join(b, sep) <==> a == b
  {
    if Join(a, sep) == Join(b, sep) {
      SplitOfJoin(a, sep);
      SplitOfJoin(b, sep);
    }
  }
}

=== FILE: wrappers.dfy ===
/** Optional values and results shared by the calendar model. */
module Wrappers {

  /** A value that may be missing; Python's `None` on the model side. */
  datatype Option<+T> = None | Some(value: T)

  /** A computation that either returns a value or raises an error. */
  datatype Result<+T, +E> = Ok(value: T) | Err(error: E)
}

/** The Python exceptions the calendar module can raise, one constructor per cause. */
module Errors {

  datatype Error =
    | UnpackMismatch  // ValueError: `split(";")` did not give exactly four values to unpack
    | NotAnInteger    // ValueError: `int(...)` on a field that is not a decimal integer
    | DateOutOfRange  // ValueError: `datetime(year, month, day)` with a field outside its range
    | DateOverflow    // OverflowError: a `datetime` field beyond a C int, or a timedelta step
                      // that left the datetime range
    | BadMonth        // IndexError / calendar.IllegalMonthError: rendering a month outside 1..12
}
